=== FILE: README.md ===
# MediaCodecDemo: NAL-unit scanner and decode pump in Dafny

This project models the core of the MediaCodecDemo Android player, which plays a raw H.264
Annex-B elementary stream through `MediaCodec`. The core has three parts.

- **Scanner.** `NALUnitReader.nextNALUnit` splits the stream into NAL units. It slides a
  four-byte window over the buffer, looking for the start code `00 00 00 01`. It rewinds three
  bytes on a mismatch, and hands out the range from one start code to the next.
- **Decode pump.** `DecodeActivity.PlayerThread.run` is the decode loop. Each turn it:
  - takes a free input slot and queues the next unit into it, or queues the end-of-stream
    flag once the reader is dry;
  - takes a decoded output buffer, waits until its presentation time, and releases it for
    rendering;
  - stops and releases the codec once the end-of-stream flag comes back or the thread is
    interrupted.
- **Codec configuration.** Two hex strings hold the sequence and picture parameter sets (SPS
  and PPS). They are turned into byte arrays with `String.split(" ")` and
  `Integer.decode("0x" + token)`, narrowed to `byte`.

The modules are:

- `AnnexB` (`annexb.dfy`): start codes, byte ranges (`Segment`), and the NAL header type.
- `NalUnitReader` (`nal_unit_reader.dfy`): the scanner, in three views.
  - `NextNALUnit` is the Java loop as written.
  - `AsWritten` gives the arguments that loop passes to `getSegment`, case by case.
  - `NextUnit` is the corrected reader. `ReadersAgreeOffDefects` proves it differs from the
    Java one exactly at the two defects described under Findings (`AtDefect`).
- `DecodePump` (`decode_pump.dfy`): the loop over a recorded sequence of turns.
  - The codec, the clock and the interrupt flag are an oracle. Each turn is a `Cycle` holding:
    - whether an interrupt is seen;
    - the input slot index;
    - the output event;
    - the clock readings of the pacing loop.
  - What the loop asks of the codec is recorded as a log of `Action`s.
  - Clock readings are arbitrary integers. Nothing requires them to be non-decreasing, so the
    pump's properties hold for any clock.
- `ConfigHex` (`config_hex.dfy`): Java's `split` and `Integer.decode` on the two constants. It
  also has an encoder, so that the round trip can be stated.
- `Wrappers` (`wrappers.dfy`): `Option`.

The pump reads the stream with the corrected reader. On a stream that begins with a start code
(or is shorter than 5 bytes) this changes nothing. `RunStaysAligned` proves that after any turns
the pump's cursor is on a start code or near the end, and `PumpReadsAsJava` that the Java reader
would give the same answer there. On other streams the two differ; "## Left out" says how.

The branch at `DecodeActivity.java:145` is meant to hold back SPS/PPS units from the decoder.
It tests the unit's first byte. Every unit the reader returns starts with its start code, so
that byte is always `00`, of NAL type 0. The model follows the code:
- `InputPhase` keeps the branch;
- `ReadUnitsAreNeverParameterSets` proves the branch is never taken, so every unit is queued.

The two hex constants are written in the Dafny as concatenations of literal pieces. The text is
the same as in the source.

## Model

| member | source | states |
|---|---|---|
| AnnexB.WindowMatches | src/io/vec/demo/mediacodec/NALUnitReader.java:28-31 | Comparing the four bytes read at `i` with `{0,0,0,1}` succeeds exactly when a start code begins at `i` |
| AnnexB.StartCodesDoNotOverlap | src/io/vec/demo/mediacodec/NALUnitReader.java:31-39 | No two start codes begin less than four bytes apart, so the jump past a matched start code skips no other start code |
| AnnexB.FindStartCode | src/io/vec/demo/mediacodec/NALUnitReader.java:27-41 | The byte-by-byte search finds the first start code at or after the cursor, and none is skipped; none is found exactly when there is none |
| NalUnitReader.ClassifyFindsFirstStartCodes | src/io/vec/demo/mediacodec/NALUnitReader.java:22-46 | The scan does nothing with fewer than 5 bytes. It finds no marker exactly when no start code lies ahead. Otherwise it stops at the first start code ahead, and a closed unit ends at the first start code after that one |
| NalUnitReader.AsWrittenFindsFirstStartCode | src/io/vec/demo/mediacodec/NALUnitReader.java:21-49 | The Java method returns `null` exactly when fewer than 5 bytes remain, leaving the cursor. It passes a negative offset exactly when no start code lies ahead. Otherwise the segment opens at the first start code ahead and the cursor moves forward |
| NalUnitReader.NextNALUnit | src/io/vec/demo/mediacodec/NALUnitReader.java:21-49 | The Java loop returns `null` when fewer than 5 bytes remain. It asks for a segment that opens at the first start code ahead, with no start code skipped. Its arguments and final position are those given by `AsWritten`, defects included |
| NalUnitReader.NextUnit | src/io/vec/demo/mediacodec/NALUnitReader.java:21-47 | Returns no unit iff fewer than 5 bytes remain or no start code lies ahead. A unit lies in the buffer, opens at the first start code ahead and holds no other start code. It ends at the next start code (where the cursor stops) or at the end of the buffer. The cursor always advances on a unit |
| NalUnitReader.Drain | src/io/vec/demo/mediacodec/NALUnitReader.java:21-47 | The units of calls repeated until none: each opens with a start code and holds no other, each ends where the next begins, and no start code is skipped before the first |
| NalUnitReader.AlignedReaderIsSound | src/io/vec/demo/mediacodec/NALUnitReader.java:26-47 | From a cursor on a start code (or near the end), the Java reader gives the same range and position as the corrected one. Neither defective case can happen, and the cursor stays aligned |
| NalUnitReader.ReadersAgreeOffDefects | src/io/vec/demo/mediacodec/NALUnitReader.java:21-49 | The Java reader and the corrected one give the same range and cursor iff the cursor is not at a defect: at least 5 bytes left and no start code ahead, or the first one ahead is the last four bytes |
| NalUnitReader.AlignedDrainIsSound | src/io/vec/demo/mediacodec/NALUnitReader.java:21-47 | From a start code, reading until `null` gives the same ranges in the same order with the Java reader as with the corrected one |
| NalUnitReader.DrainCoversBuffer | src/io/vec/demo/mediacodec/NALUnitReader.java:32-43 | Round trip: from a start code, the units laid end to end give back the rest of the buffer, except a bare start code in the last four bytes |
| NalUnitReader.ShortTailRunsToEnd | src/io/vec/demo/mediacodec/NALUnitReader.java:42-43 | When one to three bytes follow the first start code ahead of the cursor, the unit is the rest of the buffer and the next call returns `null`, in both readers |
| NalUnitReader.SampleStream | src/io/vec/demo/mediacodec/NALUnitReader.java:21-49 | `00 00 00 01 67 AA 00 00 00 01 68 BB` reads as (0,6), then (6,6), then `null` |
| NalUnitReader.NoMarkerAsksForOffsetMinusOne | src/io/vec/demo/mediacodec/NALUnitReader.java:22-43 | With at least 5 bytes left and no start code ahead, the Java reader calls `getSegment(-1, size + 1)` and its next call returns `null`; the corrected reader returns none |
| NalUnitReader.NoMarkerExample | src/io/vec/demo/mediacodec/NALUnitReader.java:43 | `AA BB CC DD EE` makes the Java reader ask for `getSegment(-1, 6)`, leave its cursor at 2, and return `null` next |
| NalUnitReader.MarkerAtEndOverruns | src/io/vec/demo/mediacodec/NALUnitReader.java:22-47 | When the first start code ahead is the last four bytes, the Java reader passes the buffer size as the length, overrunning the buffer, and its next call returns `null`; the corrected reader returns the four-byte unit |
| NalUnitReader.MarkerAtEndExample | src/io/vec/demo/mediacodec/NALUnitReader.java:47 | `AA 00 00 00 01` makes the Java reader ask for `getSegment(1, 5)` in a 5-byte buffer |
| ConfigHex.Split | src/io/vec/demo/mediacodec/DecodeActivity.java:76-77 | `split(" ")` returns the string itself when it has no space. Otherwise it returns the leading fields between spaces, with the last one non-empty (trailing empty fields dropped). No field holds a space |
| ConfigHex.FieldsJoin | src/io/vec/demo/mediacodec/DecodeActivity.java:76-77 | Cutting a string at every space and joining the fields with single spaces gives back the string |
| ConfigHex.DecodeToken | src/io/vec/demo/mediacodec/DecodeActivity.java:83-86 | `(byte) (int) Integer.decode("0x" + t)` succeeds iff `t` is a non-empty run of hex digits worth at most 0x7FFFFFFF, and gives the value's low eight bits |
| ConfigHex.DecodeHex | src/io/vec/demo/mediacodec/DecodeActivity.java:76-87 | The array is built iff every field of the split parses, with one byte per field; a string with no space is built iff it parses as one token |
| ConfigHex.DecodeTokens | src/io/vec/demo/mediacodec/DecodeActivity.java:82-87 | One byte per token, and the array is built iff every token parses; byte `i` is token `i` decoded and narrowed |
| ConfigHex.FieldsOfEncoding | src/io/vec/demo/mediacodec/DecodeActivity.java:76-77 | Splitting bytes written as single-space-separated tokens at the spaces gives back exactly the tokens |
| ConfigHex.DecodedFieldsAreKept | src/io/vec/demo/mediacodec/DecodeActivity.java:76-77 | When every field parses, none is empty, so `split` drops none of them as a trailing empty field |
| ConfigHex.DecodeHexRoundTrip | src/io/vec/demo/mediacodec/DecodeActivity.java:76-87 | Any non-empty byte array written as two-digit hex tokens separated by spaces is decoded back to itself |
| ConfigHex.EmptyHexThrows | src/io/vec/demo/mediacodec/DecodeActivity.java:76-84 | An empty hex string splits into one empty token, which `Integer.decode` rejects |
| ConfigHex.SpsIsEncoded | src/io/vec/demo/mediacodec/DecodeActivity.java:73 | The SPS string is the 28 SPS bytes written as hex tokens |
| ConfigHex.SpsBlob | src/io/vec/demo/mediacodec/DecodeActivity.java:73-84 | The SPS string decodes to 28 bytes: a start code, then a header of NAL type 7 |
| ConfigHex.PpsIsEncoded | src/io/vec/demo/mediacodec/DecodeActivity.java:74 | The PPS string is the 10 PPS bytes written as hex tokens |
| ConfigHex.PpsBlob | src/io/vec/demo/mediacodec/DecodeActivity.java:74-87 | The PPS string decodes to 10 bytes: a start code, then a header of NAL type 8 |
| DecodePump.DueMs | src/io/vec/demo/mediacodec/DecodeActivity.java:174 | `presentationTimeUs / 1000` on `long`: the whole milliseconds, truncated toward zero for either sign |
| DecodePump.PaceFrom | src/io/vec/demo/mediacodec/DecodeActivity.java:174-181 | The wait ends at the first reading that is not early (on time) or the first interrupted sleep. Every reading before it was early with an uninterrupted sleep. It is still waiting iff every reading was so |
| DecodePump.CopyUnit | src/io/vec/demo/mediacodec/DecodeActivity.java:125-140 | Copying through the 1024-byte array puts exactly the unit's bytes in the slot, `totalSize` is the unit's length, and `read` is called `length / 1024 + 1` times |
| DecodePump.InputPhase | src/io/vec/demo/mediacodec/DecodeActivity.java:110-149 | With no free slot or the end already signalled, nothing changes. Otherwise the reader advances and either the next unit is queued with time 0 and no flags, or, when none is left, an empty buffer with the end-of-stream flag is queued and `isEOS` set |
| DecodePump.ReadUnitsAreNeverParameterSets | src/io/vec/demo/mediacodec/DecodeActivity.java:144-148 | Every unit the reader returns starts with its start code, so the first-byte test never sees an SPS or PPS |
| DecodePump.OutputPhase | src/io/vec/demo/mediacodec/DecodeActivity.java:154-184 | Only a decoded buffer changes anything: `info` takes its values, and it is released for rendering iff the pacing loop ended. A release happens only after a reading at or past its due time, or an interrupted sleep |
| DecodePump.Teardown | src/io/vec/demo/mediacodec/DecodeActivity.java:194-195 | Leaving the loop appends `stop` then `release` to the requests and changes nothing else the loop keeps; the loop is finished |
| DecodePump.Step | src/io/vec/demo/mediacodec/DecodeActivity.java:109-195 | One turn only appends requests and keeps the reader within the stream. Once the end is signalled, the reader stays where it is and `isEOS` stays set. A stopped loop stays put. A running loop finishes only on an interrupt or on the end-of-stream flag in `info`, and either of those ends the Running state |
| DecodePump.Run | src/io/vec/demo/mediacodec/DecodeActivity.java:109-193 | Repeated turns only append to the request log and keep the reader within the stream |
| DecodePump.StepKeeps | src/io/vec/demo/mediacodec/DecodeActivity.java:109-195 | One turn preserves the pump invariant: queued units plus units still to read are the stream's units, the marker is queued at most once, and only once the reader is dry, nothing is queued after it, and teardown comes last |
| DecodePump.RunKeeps | src/io/vec/demo/mediacodec/DecodeActivity.java:109-195 | Every sequence of turns preserves the pump invariant |
| DecodePump.UnitsQueuedInOrder | src/io/vec/demo/mediacodec/DecodeActivity.java:110-149 | Whatever the codec and the clock do, the queued buffers are a prefix of the stream's units in reading order, and all of them once the end-of-stream flag is queued. That flag is queued at most once, and nothing after it |
| DecodePump.TeardownIsLast | src/io/vec/demo/mediacodec/DecodeActivity.java:188-195 | A finished loop's last two requests are `stop` then `release`, with no teardown earlier; a running loop has made neither and holds no end-of-stream flag |
| DecodePump.StepStaysAligned | src/io/vec/demo/mediacodec/DecodeActivity.java:109-195 | A turn that starts with the reader on a start code, or near the end, leaves it so |
| DecodePump.RunStaysAligned | src/io/vec/demo/mediacodec/DecodeActivity.java:109-195 | Any sequence of turns keeps the reader on a start code or near the end |
| DecodePump.PumpReadsAsJava | src/io/vec/demo/mediacodec/DecodeActivity.java:114 | On a stream opening with a start code (or shorter than 5 bytes), after any turns the reader is not at a defect, and the Java reader's next answer equals the corrected one's |
| DecodePump.QueuedBytesCoverStream | src/io/vec/demo/mediacodec/DecodeActivity.java:114-149 | For a stream opening with a start code, once the end-of-stream flag is queued the queued bytes laid end to end are the whole stream, except a bare trailing start code |
| DecodePump.SampleRun | src/io/vec/demo/mediacodec/DecodeActivity.java:109-195 | Over three turns on a two-unit stream, the requests are: queue unit 1, queue unit 2, release frame 0, queue end of stream, release frame 1, stop, release |

## Left out

- The activity lifecycle, the surface callbacks, thread start and interrupt delivery, and
  `MP4PlayerThread` (the container path). They are platform glue with no algorithm in them.
- Creating and configuring the decoder, including `MediaFormat` and passing the SPS/PPS arrays as
  `csd-0`/`csd-1`. The codec is an oracle; the model keeps only the decoding of the two arrays.
- The real `ByteBuffer`s. The refetch of `getOutputBuffers` on `INFO_OUTPUT_BUFFERS_CHANGED`
  changes nothing the loop keeps. The input buffer is assumed large enough for a unit, so
  `BufferOverflowException` is not modelled.
- `IsoBufferWrapper` is not part of this model. Its `read` is taken to return the lesser of 1024
  and what remains, and 0 at the end. `getSegment(offset, length)` is taken to be the byte
  range, and the Java reader's arguments are recorded as given.
- The wall clock, `sleep(10)` and the dequeue timeouts. Clock readings and sleep interrupts are
  parameters of each turn.
- DecodePump.OutputPhase: `Sleeping` means the recorded clock readings ran out mid-wait. Nothing
  after that point is modelled.
- The catch-all `catch (Exception ex)` at `DecodeActivity.java:196`, and the teardown it skips.
  Codec exceptions are not part of the oracle.
- Clearing of the interrupt flag by `Thread.interrupted()` and by `InterruptedException`. Each turn
  says afresh whether an interrupt is seen.
- Logging, and the unused value `BUFFER_FLAG_CODEC_CONFIG` assigned at `DecodeActivity.java:146`.
  The loop never reaches that branch.
- DecodePump.InputPhase: the unreachable parameter-set branch leaves its slot dequeued and never
  queued. The model keeps the branch but does not track the leaked slot.
- DecodePump.InputPhase: reads with the corrected reader. This differs from the Java loop only
  on a stream that does not begin with a start code and reaches a defect. For example, on
  `AA BB CC DD EE` the model queues the end-of-stream marker at once. Java's reader returns
  `getSegment(-1, 6)` instead of `null`, so on that turn line 116 does not take the
  end-of-stream branch; Java queues whatever `getSegment(-1, 6)` yields, and its next call
  returns `null`, one slot after the model (`NoMarkerAsksForOffsetMinusOne`). On
  `AA 00 00 00 01` the model queues the bare start code, where Java asks for `getSegment(1, 5)`
  and then returns `null` (`MarkerAtEndOverruns`). If `getSegment` throws on either range, the
  thread ends at line 196 with no end-of-stream marker and no teardown. `PumpReadsAsJava` shows
  neither case arises on a stream that opens with a start code.
- DecodePump.InputPhase: queues the unit's bytes directly. `CopyUnit` proves the chunked copy
  puts exactly those bytes in the slot.
- DecodePump.DueMs: presentation times are unbounded integers. 64-bit `long` overflow is not
  modelled.
- ConfigHex.DecodeToken: only ASCII hex digits are accepted. `Character.digit` also takes other
  Unicode digits, which cannot occur in the two constants.

## Findings

| source | as written | input that shows it | evidently intended | confidence | as-written member | corrected member |
|---|---|---|---|---|---|---|
| src/io/vec/demo/mediacodec/NALUnitReader.java:43 | With at least 5 bytes left and no start code ahead, `start` is still -1 when the window runs out, so the call is `getSegment(-1, size + 1)` | the buffer `AA BB CC DD EE` from position 0 gives `getSegment(-1, 6)` | return `null`: there is no unit | not executed | NalUnitReader.NoMarkerExample | NalUnitReader.NextUnit |
| src/io/vec/demo/mediacodec/NALUnitReader.java:47 | When the loop runs out right after the opening start code, the length passed is `position()`, which is the buffer size, not `position() - start` | the buffer `AA 00 00 00 01` from position 0 gives `getSegment(1, 5)`, past the end of a 5-byte buffer | `getSegment(start, position() - start)`, the four-byte unit `(1, 4)` | not executed | NalUnitReader.MarkerAtEndExample | NalUnitReader.NextUnit |

=== FILE: annexb.dfy ===
/** The Annex-B byte-stream vocabulary (section B.1 of ITU-T Rec. H.264) as far as the
    scanner uses it: bytes, the four-byte start code, and byte ranges of a buffer. */
module AnnexB {
  import opened Wrappers

  /** One byte of the stream as an unsigned bit pattern (Java's signed `byte` has the
      same bits; only masks and equality are applied to it). */
  type byte = bv8

  /** `zero_byte` followed by the three-byte `start_code_prefix_one_3bytes`. */
  const StartCode: seq<byte> := [0, 0, 0, 1]

  /** A complete four-byte start code begins at index `i` of `buf`. */
  predicate StartCodeAt(buf: seq<byte>, i: int)
  {
    0 <= i && i + 4 <= |buf|
    && buf[i] == 0 && buf[i + 1] == 0 && buf[i + 2] == 0 && buf[i + 3] == 1
  }

  /** Reading the four-byte window at `i` and comparing it with the marker is the same
      as the index-wise test. */
  lemma WindowMatches(buf: seq<byte>, i: nat)
    requires i + 4 <= |buf|
    ensures buf[i .. i + 4] == StartCode <==> StartCodeAt(buf, i)
  {
    if StartCodeAt(buf, i) {
      assert buf[i .. i + 4] == [buf[i], buf[i + 1], buf[i + 2], buf[i + 3]];
    }
  }

  /** Two start codes never overlap: the `01` of one sits where the other needs a `00`. */
  lemma StartCodesDoNotOverlap(buf: seq<byte>, i: int, j: int)
    requires StartCodeAt(buf, i) && i < j < i + 4
    ensures !StartCodeAt(buf, j)
  {
  }

  /** The first start code at or after `from`, found one byte at a time. */
  function FindStartCode(buf: seq<byte>, from: nat): (r: Option<nat>)
    decreases |buf| - from
    ensures r.Some? ==> from <= r.value && StartCodeAt(buf, r.value)
    ensures r.Some? ==> forall j :: from <= j < r.value ==> !StartCodeAt(buf, j)
    ensures r.None? ==> forall j :: from <= j ==> !StartCodeAt(buf, j)
  {
    if from + 4 > |buf| then None
    else if StartCodeAt(buf, from) then Some(from)
    else FindStartCode(buf, from + 1)
  }

  lemma AppendAssoc<T>(a: seq<T>, b: seq<T>, c: seq<T>)
    ensures (a + b) + c == a + (b + c)
  {
  }

  /** Two adjacent slices make up the longer one. */
  lemma SlicesJoin<T>(s: seq<T>, i: nat, j: nat)
    requires i <= j <= |s|
    ensures s[i .. j] + s[j..] == s[i..]
  {
  }

  /** The byte range `getSegment(offset, length)` hands out: a view of the backing buffer. */
  datatype Segment = Segment(offset: nat, length: nat)
  {
    predicate Within(buf: seq<byte>)
    {
      offset + length <= |buf|
    }

    function End(): nat
    {
      offset + length
    }
  }

  /** The bytes a segment views. */
  function Contents(buf: seq<byte>, s: Segment): seq<byte>
    requires s.Within(buf)
  {
    buf[s.offset .. s.End()]
  }

  /** No start code begins strictly inside the segment (its own leading one excepted). */
  predicate NoInteriorStartCode(buf: seq<byte>, s: Segment)
  {
    forall k :: s.offset < k && k + 4 <= s.End() ==> !StartCodeAt(buf, k)
  }

  predicate AllWithin(buf: seq<byte>, segs: seq<Segment>)
  {
    forall i :: 0 <= i < |segs| ==> segs[i].Within(buf)
  }

  /** The bytes of successive segments laid end to end. */
  function Concat(buf: seq<byte>, segs: seq<Segment>): seq<byte>
    requires AllWithin(buf, segs)
  {
    if |segs| == 0 then [] else Contents(buf, segs[0]) + Concat(buf, segs[1..])
  }

  /** The bytes of each segment, one entry per segment. */
  function Units(buf: seq<byte>, segs: seq<Segment>): (us: seq<seq<byte>>)
    requires AllWithin(buf, segs)
    ensures |us| == |segs|
    ensures forall i :: 0 <= i < |segs| ==> us[i] == Contents(buf, segs[i])
  {
    if |segs| == 0 then [] else [Contents(buf, segs[0])] + Units(buf, segs[1..])
  }

  /** Low five bits of a byte: `nal_unit_type` when applied to a NAL unit header
      (Table 7-1 of ITU-T Rec. H.264). */
  function NalType(b: byte): bv8
  {
    b & 0x1F
  }

  /** Types 7 and 8: sequence and picture parameter sets. */
  predicate IsParameterSet(b: byte)
  {
    NalType(b) == 7 || NalType(b) == 8
  }
}

=== FILE: config_hex.dfy ===
/** The decoder configuration blobs: the sequence and picture parameter sets written as
    space-separated hex tokens and turned into bytes with `String.split(" ")` and
    `Integer.decode("0x" + token)` narrowed to a byte. */
module ConfigHex {
  import opened Wrappers
  import opened AnnexB

  const SpsHex: string :=
    "00 00 00 01" + " " + "67 64 00 15" + " " + "AC D9 41 40" + " " + "47 A1 00 00" + " " +
    "03 00 01 00" + " " + "00 03 00 32" + " " + "0F 16 2D 96"
  const PpsHex: string := "00 00 00 01 68" + " " + "EB E3 CB 22 C0"

  /** The index of the first space. */
  function SpaceIndex(s: string): (i: nat)
    requires ' ' in s
    ensures i < |s| && s[i] == ' ' && ' ' !in s[..i]
  {
    if s[0] == ' ' then 0
    else
      assert s[1..][..SpaceIndex(s[1..])] == s[1..SpaceIndex(s[1..]) + 1];
      1 + SpaceIndex(s[1..])
  }

  /** The fields between single spaces, empty ones included: one more field than spaces. */
  function Fields(s: string): (fs: seq<string>)
    decreases |s|
    ensures |fs| > 0
    ensures forall i :: 0 <= i < |fs| ==> ' ' !in fs[i]
  {
    if ' ' in s then
      var i := SpaceIndex(s);
      [s[..i]] + Fields(s[i + 1..])
    else [s]
  }

  /** Fields put back together with a single space between neighbours. */
  function Join(fs: seq<string>): string
  {
    if |fs| == 0 then "" else if |fs| == 1 then fs[0] else fs[0] + " " + Join(fs[1..])
  }

  /** Cutting at every space and joining again with spaces gives back the string. */
  lemma {:induction false} FieldsJoin(s: string)
    decreases |s|
    ensures Join(Fields(s)) == s
  {
    if ' ' in s {
      var i := SpaceIndex(s);
      var rest := s[i + 1..];
      FieldsJoin(rest);
      assert Fields(s) == [s[..i]] + Fields(rest);
      assert Fields(s)[1..] == Fields(rest);
      assert s == s[..i] + " " + rest;
    }
  }

  function DropTrailingEmpty(fs: seq<string>): (r: seq<string>)
    ensures |r| <= |fs| && r == fs[..|r|]
    ensures |r| == 0 || r[|r| - 1] != ""
    ensures forall i :: |r| <= i < |fs| ==> fs[i] == ""
  {
    if |fs| == 0 || fs[|fs| - 1] != "" then fs else DropTrailingEmpty(fs[..|fs| - 1])
  }

  /** `String.split(" ")`: with no space at all the string itself is the one field;
      otherwise the fields with trailing empty ones removed. */
  function Split(s: string): (r: seq<string>)
    ensures ' ' !in s ==> r == [s]
    ensures forall i :: 0 <= i < |r| ==> ' ' !in r[i]
    ensures ' ' in s ==> |r| <= |Fields(s)| && r == Fields(s)[..|r|] && (|r| == 0 || r[|r| - 1] != "")
    ensures ' ' in s ==> forall i :: |r| <= i < |Fields(s)| ==> Fields(s)[i] == ""
  {
    if ' ' !in s then [s] else DropTrailingEmpty(Fields(s))
  }

  function HexDigit(c: char): Option<nat>
  {
    if '0' <= c <= '9' then Some(c as nat - '0' as nat)
    else if 'a' <= c <= 'f' then Some(c as nat - 'a' as nat + 10)
    else if 'A' <= c <= 'F' then Some(c as nat - 'A' as nat + 10)
    else None
  }

  predicate AllHexDigits(t: string)
  {
    forall i :: 0 <= i < |t| ==> HexDigit(t[i]).Some?
  }

  /** The value of a string of hex digits, most significant first. */
  function HexValue(t: string): nat
    requires AllHexDigits(t)
  {
    if |t| == 0 then 0 else 16 * HexValue(t[..|t| - 1]) + HexDigit(t[|t| - 1]).value
  }

  const JavaIntMax: nat := 0x7FFF_FFFF

  /** `(byte) (int) Integer.decode("0x" + t)`: after the `0x` prefix no sign is allowed, the
      rest must be a non-empty run of hex digits whose value fits a Java `int`, and the
      cast keeps the low eight bits. Anything else throws, which is `None` here. */
  function DecodeToken(t: string): (r: Option<byte>)
    ensures r.Some? <==> 0 < |t| && AllHexDigits(t) && HexValue(t) <= JavaIntMax
    ensures r.Some? ==> r.value == (HexValue(t) % 256) as byte
  {
    if |t| == 0 || !AllHexDigits(t) || HexValue(t) > JavaIntMax then None
    else Some((HexValue(t) % 256) as byte)
  }

  /** One byte per token, or `None` if any token throws. */
  function DecodeTokens(ts: seq<string>): (r: Option<seq<byte>>)
    ensures r.Some? ==> |r.value| == |ts|
    ensures r.Some? <==> forall i :: 0 <= i < |ts| ==> DecodeToken(ts[i]).Some?
    ensures r.Some? ==> forall i :: 0 <= i < |ts| ==> Some(r.value[i]) == DecodeToken(ts[i])
  {
    if |ts| == 0 then Some([])
    else match (DecodeToken(ts[0]), DecodeTokens(ts[1..]))
      case (Some(b), Some(bs)) => Some([b] + bs)
      case _ => None
  }

  /** The header arrays built at DecodeActivity.java lines 76-87. */
  function DecodeHex(s: string): (r: Option<seq<byte>>)
    ensures r.Some? <==> forall i :: 0 <= i < |Split(s)| ==> DecodeToken(Split(s)[i]).Some?
    ensures r.Some? ==> |r.value| == |Split(s)|
    ensures ' ' !in s ==> (r.Some? <==> DecodeToken(s).Some?)
  {
    DecodeTokens(Split(s))
  }

  /** The inverse direction, to state the round trip: each byte as two upper-case hex digits,
      tokens separated by single spaces, the way the two constants are written. */
  function HexChar(d: int): char
    requires 0 <= d < 16
  {
    if d < 10 then ('0' as int + d) as char else ('A' as int + d - 10) as char
  }

  function Token(b: byte): string
  {
    [HexChar(b as int / 16), HexChar(b as int % 16)]
  }

  function Tokens(bs: seq<byte>): (ts: seq<string>)
    ensures |ts| == |bs|
    ensures forall i :: 0 <= i < |bs| ==> ts[i] == Token(bs[i])
  {
    if |bs| == 0 then [] else [Token(bs[0])] + Tokens(bs[1..])
  }

  function EncodeHex(bs: seq<byte>): string
  {
    if |bs| == 0 then ""
    else if |bs| == 1 then Token(bs[0])
    else Token(bs[0]) + " " + EncodeHex(bs[1..])
  }

  lemma HexCharDecodes(d: int)
    requires 0 <= d < 16
    ensures HexDigit(HexChar(d)) == Some(d)
  {
  }

  lemma HexPairValue(t: string)
    requires |t| == 2 && AllHexDigits(t)
    ensures HexValue(t) == 16 * HexDigit(t[0]).value + HexDigit(t[1]).value
  {
    var t1 := t[..1];
    assert t1[0] == t[0] && t1[..0] == [];
    assert HexValue(t1) == HexDigit(t[0]).value;
    assert t[..|t| - 1] == t1;
  }

  /** Two hex digits decode to the byte they spell. */
  lemma PairDecodes(t: string, b: byte)
    requires |t| == 2 && HexDigit(t[0]).Some? && HexDigit(t[1]).Some?
    requires b as int == 16 * HexDigit(t[0]).value + HexDigit(t[1]).value
    ensures DecodeToken(t) == Some(b)
  {
    HexPairValue(t);
    assert HexValue(t) % 256 == b as int;
  }

  lemma TokenDecodes(b: byte)
    ensures DecodeToken(Token(b)) == Some(b)
  {
    HexCharDecodes(b as int / 16);
    HexCharDecodes(b as int % 16);
    PairDecodes(Token(b), b);
  }

  lemma {:induction false} TokensDecode(bs: seq<byte>)
    ensures DecodeTokens(Tokens(bs)) == Some(bs)
  {
    if |bs| > 0 {
      var ts := Tokens(bs);
      TokenDecodes(bs[0]);
      TokensDecode(bs[1..]);
      assert ts[1..] == Tokens(bs[1..]);
      assert DecodeToken(ts[0]) == Some(bs[0]);
      assert [bs[0]] + bs[1..] == bs;
    }
  }

  /** A space-free word followed by a space: the word is the first field. */
  lemma FieldsCons(t: string, rest: string)
    requires ' ' !in t
    ensures Fields(t + " " + rest) == [t] + Fields(rest)
  {
    var s := t + " " + rest;
    assert s[|t|] == ' ';
    assert s[..|t|] == t;
    var i := SpaceIndex(s);
    assert s[..i] == t && s[i + 1..] == rest;
  }

  lemma {:induction false} FieldsOfEncoding(bs: seq<byte>)
    requires |bs| > 0
    ensures Fields(EncodeHex(bs)) == Tokens(bs)
  {
    assert ' ' !in Token(bs[0]);
    if |bs| > 1 {
      FieldsCons(Token(bs[0]), EncodeHex(bs[1..]));
      FieldsOfEncoding(bs[1..]);
      assert Tokens(bs) == [Token(bs[0])] + Tokens(bs[1..]);
    }
  }

  /** Fields that all decode are non-empty, so `split` keeps every one of them. */
  lemma {:induction false} DecodedFieldsAreKept(fs: seq<string>)
    requires DecodeTokens(fs).Some?
    ensures DropTrailingEmpty(fs) == fs
  {
    if |fs| > 0 {
      assert DecodeToken(fs[|fs| - 1]).Some?;
    }
  }

  /** Every non-empty byte sequence written as hex tokens decodes back to itself. */
  lemma DecodeHexRoundTrip(bs: seq<byte>)
    requires |bs| > 0
    ensures DecodeHex(EncodeHex(bs)) == Some(bs)
  {
    FieldsOfEncoding(bs);
    TokensDecode(bs);
    if |bs| > 1 {
      assert EncodeHex(bs)[2] == ' ';
      DecodedFieldsAreKept(Tokens(bs));
    } else {
      assert ' ' !in Token(bs[0]);
    }
  }

  /** The empty string splits into one empty token, which does not parse: there is no
      empty blob. */
  lemma EmptyHexThrows()
    ensures DecodeHex("") == None
  {
    assert Split("") == [""];
  }

  /** Writing two byte sequences one after the other puts a single space between them. */
  lemma {:induction false} EncodeHexAppend(a: seq<byte>, b: seq<byte>)
    requires |a| > 0 && |b| > 0
    ensures EncodeHex(a + b) == EncodeHex(a) + " " + EncodeHex(b)
  {
    assert (a + b)[0] == a[0];
    if |a| > 1 {
      EncodeHexAppend(a[1..], b);
      assert (a + b)[1..] == a[1..] + b;
    } else {
      assert (a + b)[1..] == b;
    }
  }

  const SpsBytes: seq<byte> :=
    [0x00, 0x00, 0x00, 0x01] + [0x67, 0x64, 0x00, 0x15] + [0xAC, 0xD9, 0x41, 0x40] + [0x47, 0xA1, 0x00, 0x00] +
    [0x03, 0x00, 0x01, 0x00] + [0x00, 0x03, 0x00, 0x32] + [0x0F, 0x16, 0x2D, 0x96]

  const PpsBytes: seq<byte> := [0x00, 0x00, 0x00, 0x01, 0x68] + [0xEB, 0xE3, 0xCB, 0x22, 0xC0]

  /** The SPS constant is the SPS bytes written as hex tokens, four bytes at a time. */
  lemma SpsIsEncoded()
    ensures SpsHex == EncodeHex(SpsBytes)
  {
    var b0: seq<byte> := [0x00, 0x00, 0x00, 0x01];
    var b1: seq<byte> := [0x67, 0x64, 0x00, 0x15];
    var b2: seq<byte> := [0xAC, 0xD9, 0x41, 0x40];
    var b3: seq<byte> := [0x47, 0xA1, 0x00, 0x00];
    var b4: seq<byte> := [0x03, 0x00, 0x01, 0x00];
    var b5: seq<byte> := [0x00, 0x03, 0x00, 0x32];
    var b6: seq<byte> := [0x0F, 0x16, 0x2D, 0x96];
    SpsBlock0();
    SpsBlock1();
    SpsBlock2();
    SpsBlock3();
    SpsBlock4();
    SpsBlock5();
    SpsBlock6();
    EncodeHexAppend(b0, b1);
    EncodeHexAppend(b0 + b1, b2);
    EncodeHexAppend(b0 + b1 + b2, b3);
    EncodeHexAppend(b0 + b1 + b2 + b3, b4);
    EncodeHexAppend(b0 + b1 + b2 + b3 + b4, b5);
    EncodeHexAppend(b0 + b1 + b2 + b3 + b4 + b5, b6);
  }

  lemma SpsBlock0()
    ensures EncodeHex([0x00, 0x00, 0x00, 0x01]) == "00 00 00 01"
  {
  }

  lemma SpsBlock1()
    ensures EncodeHex([0x67, 0x64, 0x00, 0x15]) == "67 64 00 15"
  {
  }

  lemma SpsBlock2()
    ensures EncodeHex([0xAC, 0xD9, 0x41, 0x40]) == "AC D9 41 40"
  {
  }

  lemma SpsBlock3()
    ensures EncodeHex([0x47, 0xA1, 0x00, 0x00]) == "47 A1 00 00"
  {
  }

  lemma SpsBlock4()
    ensures EncodeHex([0x03, 0x00, 0x01, 0x00]) == "03 00 01 00"
  {
  }

  lemma SpsBlock5()
    ensures EncodeHex([0x00, 0x03, 0x00, 0x32]) == "00 03 00 32"
  {
  }

  lemma SpsBlock6()
    ensures EncodeHex([0x0F, 0x16, 0x2D, 0x96]) == "0F 16 2D 96"
  {
  }

  /** The SPS constant decodes to 28 bytes, one per token: a start code, then a NAL header
      of type 7. */
  lemma SpsBlob()
    ensures DecodeHex(SpsHex) == Some(SpsBytes)
    ensures |SpsBytes| == 28 && SpsBytes[..4] == StartCode && NalType(SpsBytes[4]) == 7
  {
    SpsIsEncoded();
    DecodeHexRoundTrip(SpsBytes);
    SpsHeader();
  }

  lemma SpsHeader()
    ensures |SpsBytes| == 28 && SpsBytes[..4] == StartCode && NalType(SpsBytes[4]) == 7
  {
    assert SpsBytes[4] == 0x67;
  }

  /** The PPS constant is the PPS bytes written as hex tokens. */
  lemma PpsIsEncoded()
    ensures PpsHex == EncodeHex(PpsBytes)
  {
    var b0: seq<byte> := [0x00, 0x00, 0x00, 0x01, 0x68];
    var b1: seq<byte> := [0xEB, 0xE3, 0xCB, 0x22, 0xC0];
    assert EncodeHex(b0) == "00 00 00 01 68";
    assert EncodeHex(b1) == "EB E3 CB 22 C0";
    EncodeHexAppend(b0, b1);
  }

  /** The PPS constant decodes to 10 bytes, one per token: a start code, then a NAL header
      of type 8. */
  lemma PpsBlob()
    ensures DecodeHex(PpsHex) == Some(PpsBytes)
    ensures |PpsBytes| == 10 && PpsBytes[..4] == StartCode && NalType(PpsBytes[4]) == 8
  {
    PpsIsEncoded();
    DecodeHexRoundTrip(PpsBytes);
    assert PpsBytes[4] == 0x68;
  }
}

=== FILE: decode_pump.dfy ===
/** The decode loop of the player thread: feed one NAL unit per free input slot, hand the
    end-of-stream flag over once the reader runs dry, release each decoded frame once its
    presentation time has come, and tear the codec down when the end-of-stream flag comes
    back or the thread is interrupted.

    The codec is an oracle: every turn of the loop is one `Cycle` recording what the codec
    and the thread reported during that turn. The model records what the loop asks of the
    codec as a log of `Action`s. */
module DecodePump {
  import opened Wrappers
  import opened AnnexB
  import opened NalUnitReader

  /** `MediaCodec.BUFFER_FLAG_END_OF_STREAM`. */
  const FlagEndOfStream: bv32 := 4

  /** The size of the staging array the unit is copied through. */
  const ChunkSize: nat := 1024

  /** The codec's `BufferInfo`: presentation time in microseconds and the buffer flags. */
  datatype BufferInfo = BufferInfo(presentationTimeUs: int, flags: bv32)

  /** A freshly constructed `BufferInfo`. */
  const EmptyInfo: BufferInfo := BufferInfo(0, 0)

  /** What `dequeueOutputBuffer` reports: one of the three `INFO_*` codes, or the index of a
      decoded buffer together with the `BufferInfo` it fills in. */
  datatype OutEvent =
    | BuffersChanged
    | FormatChanged
    | TryAgainLater
    | Ready(index: nat, info: BufferInfo)

  /** One turn of the pacing loop: the clock reading it compares against, and whether the
      10 ms sleep that follows was interrupted. */
  datatype Poll = Poll(nowMs: int, sleepInterrupted: bool)

  /** One turn of the main loop as the environment plays it: whether `Thread.interrupted()`
      reports an interrupt, the index `dequeueInputBuffer` returns (negative: none free), the
      answer of `dequeueOutputBuffer`, and the clock readings of the pacing loop. */
  datatype Cycle = Cycle(interrupted: bool, inIndex: int, out: OutEvent, polls: seq<Poll>)

  /** The requests the loop makes of the codec. */
  datatype Action =
    | QueueInput(slot: nat, data: seq<byte>, timeUs: int, flags: bv32)
    | ReleaseOutput(index: nat, render: bool)
    | StopDecoder
    | ReleaseDecoder

  /** `Sleeping`: the pacing loop was still waiting when the recorded clock readings ran out,
      so nothing after that point is known. */
  datatype Status = Running | Sleeping | Finished

  /** The loop's state: the reader's position, `isEOS`, the last `BufferInfo`, the requests
      made so far, and whether the loop is still going. */
  datatype Pump = Pump(cursor: nat, isEOS: bool, info: BufferInfo, log: seq<Action>, status: Status)

  const Init: Pump := Pump(0, false, EmptyInfo, [], Running)

  /** `info.presentationTimeUs / 1000` on Java `long`s: the quotient truncated toward zero. */
  function DueMs(timeUs: int): (ms: int)
    ensures timeUs >= 0 ==> 0 <= ms * 1000 <= timeUs < ms * 1000 + 1000
    ensures timeUs < 0 ==> ms * 1000 - 1000 < timeUs <= ms * 1000 <= 0
  {
    if timeUs >= 0 then timeUs / 1000 else -((-timeUs) / 1000)
  }

  /** How the pacing loop ends: its condition failed at reading `at`, or the sleep after
      reading `at` was interrupted; or it had not ended when the readings ran out. */
  datatype Pacing = OnTime(at: nat) | Interrupted(at: nat) | StillSleeping

  /** Reading `k` tells the loop to keep waiting. */
  predicate Early(dueMs: int, startMs: int, p: Poll)
  {
    dueMs > p.nowMs - startMs
  }

  /** The pacing loop from reading `k` on: wait while the due time is later than the time
      elapsed since `startMs`, leaving early when a sleep is interrupted. */
  function PaceFrom(dueMs: int, startMs: int, polls: seq<Poll>, k: nat): (r: Pacing)
    requires k <= |polls|
    decreases |polls| - k
    ensures r.OnTime? ==> k <= r.at < |polls| && !Early(dueMs, startMs, polls[r.at])
    ensures r.Interrupted? ==>
              k <= r.at < |polls| && Early(dueMs, startMs, polls[r.at]) && polls[r.at].sleepInterrupted
    ensures !r.StillSleeping? ==>
              forall j :: k <= j < r.at ==> Early(dueMs, startMs, polls[j]) && !polls[j].sleepInterrupted
    ensures r.StillSleeping? <==>
              forall j :: k <= j < |polls| ==> Early(dueMs, startMs, polls[j]) && !polls[j].sleepInterrupted
  {
    if k == |polls| then StillSleeping
    else if !Early(dueMs, startMs, polls[k]) then OnTime(k)
    else if polls[k].sleepInterrupted then Interrupted(k)
    else PaceFrom(dueMs, startMs, polls, k + 1)
  }

  function Pace(dueMs: int, startMs: int, polls: seq<Poll>): Pacing
  {
    PaceFrom(dueMs, startMs, polls, 0)
  }

  /** Copies a unit into the codec's input buffer through a 1024-byte array, the way the
      loop does: read a chunk, stop on an empty read or a short one. `slot` is what ends up
      in the input buffer and `readCalls` the number of `read` calls. */
  method CopyUnit(unit: seq<byte>) returns (slot: seq<byte>, totalSize: nat, readCalls: nat)
    ensures slot == unit && totalSize == |unit|
    ensures readCalls == |unit| / ChunkSize + 1
  {
    slot := [];
    var offset: nat := 0;
    readCalls := 0;
    while true
      invariant offset <= |unit| && slot == unit[..offset]
      invariant offset % ChunkSize == 0 && readCalls == offset / ChunkSize
      decreases |unit| - offset
    {
      var bytes := if |unit| - offset < ChunkSize then |unit| - offset else ChunkSize;
      readCalls := readCalls + 1;
      if bytes <= 0 {
        break;
      }
      slot := slot + unit[offset .. offset + bytes];
      offset := offset + bytes;
      if bytes < ChunkSize {
        break;
      }
    }
    totalSize := offset;
  }

  /** The input half of a turn: with a free slot and the end not yet signalled, ask the reader
      for the next unit; queue it, or queue the end-of-stream flag when there is none. A unit
      whose header says parameter set is not queued, but a unit the reader hands out starts
      with its start code, so its first byte is zero and that branch is never taken. */
  function InputPhase(stream: seq<byte>, p: Pump, inIndex: int): (q: Pump)
    requires p.cursor <= |stream|
    ensures q.info == p.info && q.status == p.status && q.cursor <= |stream|
    ensures p.isEOS || inIndex < 0 ==> q == p
    ensures !p.isEOS && inIndex >= 0 ==>
              var r := NextUnit(stream, p.cursor);
              q.cursor == r.cursor
              && (r.unit.None? ==>
                    q.isEOS && q.log == p.log + [QueueInput(inIndex, [], 0, FlagEndOfStream)])
              && (r.unit.Some? ==>
                    !q.isEOS && q.log == p.log + [QueueInput(inIndex, Contents(stream, r.unit.value), 0, 0)])
  {
    if p.isEOS || inIndex < 0 then p
    else
      var r := NextUnit(stream, p.cursor);
      match r.unit
      case None =>
        p.(cursor := r.cursor, isEOS := true,
           log := p.log + [QueueInput(inIndex, [], 0, FlagEndOfStream)])
      case Some(u) =>
        var data := Contents(stream, u);
        assert data[0] == 0;
        if IsParameterSet(data[0]) then p.(cursor := r.cursor)
        else p.(cursor := r.cursor, log := p.log + [QueueInput(inIndex, data, 0, 0)])
  }

  /** The output half of a turn: a decoded buffer updates `info`, waits for its presentation
      time, and is released for rendering; the `INFO_*` codes change nothing the loop keeps. */
  function OutputPhase(p: Pump, out: OutEvent, polls: seq<Poll>, startMs: int): (q: Pump)
    ensures q.cursor == p.cursor && q.isEOS == p.isEOS
    ensures !out.Ready? ==> q == p
    ensures out.Ready? ==> q.info == out.info
    ensures out.Ready? ==>
              (q.log == p.log + [ReleaseOutput(out.index, true)] && q.status == p.status
               <==> !Pace(DueMs(out.info.presentationTimeUs), startMs, polls).StillSleeping?)
    ensures q.log == p.log || q.log == p.log + [ReleaseOutput(out.index, true)]
    ensures q.log != p.log ==>
              exists k :: 0 <= k < |polls|
                && (!Early(DueMs(out.info.presentationTimeUs), startMs, polls[k]) || polls[k].sleepInterrupted)
    ensures q.status == p.status || q.status == Sleeping
  {
    match out
    case Ready(index, info) =>
      if Pace(DueMs(info.presentationTimeUs), startMs, polls).StillSleeping? then
        p.(info := info, status := Sleeping)
      else
        p.(info := info, log := p.log + [ReleaseOutput(index, true)])
    case _ => p
  }

  /** Leaving the loop: `decoder.stop()` then `decoder.release()`. */
  function Teardown(p: Pump): (q: Pump)
    ensures q.status == Finished
    ensures q.cursor == p.cursor && q.isEOS == p.isEOS && q.info == p.info
    ensures |q.log| == |p.log| + 2 && q.log[..|p.log|] == p.log
    ensures q.log[|p.log|].StopDecoder? && q.log[|p.log| + 1].ReleaseDecoder?
  {
    p.(log := p.log + [StopDecoder, ReleaseDecoder], status := Finished)
  }

  /** One turn of the loop. Only a running loop moves; it ends on an interrupt before the
      turn, or when the buffer info it holds after the turn carries the end-of-stream flag. */
  function Step(stream: seq<byte>, startMs: int, p: Pump, c: Cycle): (q: Pump)
    requires p.cursor <= |stream|
    ensures q.cursor <= |stream|
    ensures |p.log| <= |q.log| && q.log[..|p.log|] == p.log
    ensures p.status != Running ==> q == p
    ensures p.isEOS ==> q.isEOS && q.cursor == p.cursor
    ensures p.status == Running && q.status == Finished ==>
              c.interrupted || q.info.flags & FlagEndOfStream != 0
    ensures p.status == Running && (c.interrupted || q.info.flags & FlagEndOfStream != 0) ==>
              q.status != Running
  {
    if p.status != Running then p
    else if c.interrupted then Teardown(p)
    else
      var a := InputPhase(stream, p, c.inIndex);
      var b := OutputPhase(a, c.out, c.polls, startMs);
      if b.status == Running && b.info.flags & FlagEndOfStream != 0 then Teardown(b) else b
  }

  /** The loop over a recorded sequence of turns. */
  function Run(stream: seq<byte>, startMs: int, p: Pump, cycles: seq<Cycle>): (q: Pump)
    requires p.cursor <= |stream|
    decreases |cycles|
    ensures q.cursor <= |stream|
    ensures |p.log| <= |q.log| && q.log[..|p.log|] == p.log
  {
    if |cycles| == 0 then p
    else Run(stream, startMs, Step(stream, startMs, p, cycles[0]), cycles[1..])
  }

  // ---------------------------------------------------------------------------------------
  // What the log says

  predicate IsPayload(a: Action)
  {
    a.QueueInput? && a.flags & FlagEndOfStream == 0
  }

  predicate IsEndOfStream(a: Action)
  {
    a.QueueInput? && a.flags & FlagEndOfStream != 0
  }

  predicate IsTeardown(a: Action)
  {
    a.StopDecoder? || a.ReleaseDecoder?
  }

  /** The data of every queued buffer that is not the end-of-stream marker, in order. */
  function Payloads(log: seq<Action>): seq<seq<byte>>
  {
    if |log| == 0 then []
    else
      var last := log[|log| - 1];
      Payloads(log[..|log| - 1]) + (if IsPayload(last) then [last.data] else [])
  }

  function EndOfStreamCount(log: seq<Action>): nat
  {
    if |log| == 0 then 0
    else EndOfStreamCount(log[..|log| - 1]) + (if IsEndOfStream(log[|log| - 1]) then 1 else 0)
  }

  /** Once the end-of-stream marker is queued, no buffer is queued after it. */
  predicate NothingQueuedAfterEnd(log: seq<Action>)
  {
    forall i, j :: 0 <= i < j < |log| && IsEndOfStream(log[i]) ==> !log[j].QueueInput?
  }

  predicate NoTeardown(log: seq<Action>)
  {
    forall i :: 0 <= i < |log| ==> !IsTeardown(log[i])
  }

  /** A finished loop's log ends with one stop and one release and has no teardown before
      them; an unfinished one has none at all. */
  predicate TeardownOnlyAtEnd(log: seq<Action>, status: Status)
  {
    if status == Finished then
      |log| >= 2 && log[|log| - 2..] == [StopDecoder, ReleaseDecoder] && NoTeardown(log[..|log| - 2])
    else NoTeardown(log)
  }

  /** The reading half of the invariant: the units queued so far followed by the units
      still to be read are all the units of the stream, and the end-of-stream marker is
      queued at most once, and only once the reader is dry. */
  predicate ReadInv(stream: seq<byte>, cursor: nat, isEOS: bool, log: seq<Action>)
  {
    cursor <= |stream|
    && Payloads(log) + Units(stream, Drain(stream, cursor)) == Units(stream, Drain(stream, 0))
    && EndOfStreamCount(log) == (if isEOS then 1 else 0)
    && (isEOS ==> Drain(stream, cursor) == [])
  }

  /** The invariant of the loop over a stream: the reading half; nothing is queued after the
      end-of-stream marker; a running loop holds no end-of-stream flag; teardown happens
      last and once. */
  predicate Inv(stream: seq<byte>, p: Pump)
  {
    ReadInv(stream, p.cursor, p.isEOS, p.log)
    && NothingQueuedAfterEnd(p.log)
    && (p.status == Running ==> p.info.flags & FlagEndOfStream == 0)
    && TeardownOnlyAtEnd(p.log, p.status)
  }

  // ---------------------------------------------------------------------------------------
  // Lemmas

  /** Appending one request extends the payloads and the end-of-stream count by what it is. */
  lemma AppendAction(log: seq<Action>, a: Action)
    ensures Payloads(log + [a]) == Payloads(log) + (if IsPayload(a) then [a.data] else [])
    ensures EndOfStreamCount(log + [a]) == EndOfStreamCount(log) + (if IsEndOfStream(a) then 1 else 0)
  {
    assert (log + [a])[..|log|] == log;
  }

  /** A log without end-of-stream markers. */
  lemma {:induction false} NoEndCounted(log: seq<Action>)
    requires EndOfStreamCount(log) == 0
    ensures forall i :: 0 <= i < |log| ==> !IsEndOfStream(log[i])
  {
    if |log| > 0 {
      var init := log[..|log| - 1];
      NoEndCounted(init);
      assert forall i :: 0 <= i < |init| ==> log[i] == init[i];
    }
  }

  /** The first byte of every unit the reader hands out is the zero of its start code, so
      its header never reads as a parameter set. */
  lemma ReadUnitsAreNeverParameterSets(stream: seq<byte>, pos: nat)
    requires pos <= |stream| && NextUnit(stream, pos).unit.Some?
    ensures var data := Contents(stream, NextUnit(stream, pos).unit.value);
            StartCodeAt(data, 0) && !IsParameterSet(data[0])
  {
    var u := NextUnit(stream, pos).unit.value;
    var data := Contents(stream, u);
    assert data[0] == stream[u.offset] && data[1] == stream[u.offset + 1];
    assert data[2] == stream[u.offset + 2] && data[3] == stream[u.offset + 3];
  }

  lemma InitInv(stream: seq<byte>)
    ensures Inv(stream, Init)
  {
  }

  /** A request that queues nothing keeps "nothing queued after the end". */
  lemma AppendOther(log: seq<Action>, a: Action)
    requires !a.QueueInput? && NothingQueuedAfterEnd(log)
    ensures NothingQueuedAfterEnd(log + [a])
  {
    assert forall k :: 0 <= k < |log| ==> (log + [a])[k] == log[k];
  }

  /** Before the end-of-stream marker, queueing anything keeps it. */
  lemma AppendBeforeEnd(log: seq<Action>, a: Action)
    requires EndOfStreamCount(log) == 0
    ensures NothingQueuedAfterEnd(log + [a])
  {
    NoEndCounted(log);
    assert forall k :: 0 <= k < |log| ==> (log + [a])[k] == log[k];
  }

  /** A request that is not a teardown keeps a log free of teardowns. */
  lemma AppendNoTeardown(log: seq<Action>, a: Action)
    requires !IsTeardown(a) && NoTeardown(log)
    ensures NoTeardown(log + [a])
  {
    assert forall k :: 0 <= k < |log| ==> (log + [a])[k] == log[k];
  }

  /** Tearing down an unfinished loop appends the stop and the release and nothing else
      the invariant tracks. */
  lemma TeardownKeeps(p: Pump)
    requires p.status != Finished && NoTeardown(p.log) && NothingQueuedAfterEnd(p.log)
    ensures var q := Teardown(p);
            Payloads(q.log) == Payloads(p.log) && EndOfStreamCount(q.log) == EndOfStreamCount(p.log)
            && NothingQueuedAfterEnd(q.log) && TeardownOnlyAtEnd(q.log, q.status)
  {
    var l1 := p.log + [StopDecoder];
    AppendAction(p.log, StopDecoder);
    AppendOther(p.log, StopDecoder);
    AppendAction(l1, ReleaseDecoder);
    AppendOther(l1, ReleaseDecoder);
    assert Teardown(p).log == l1 + [ReleaseDecoder];
    assert (l1 + [ReleaseDecoder])[..|p.log|] == p.log;
  }

  /** The units still to read from `cursor` are the next unit followed by those after it. */
  lemma UnitsAhead(stream: seq<byte>, cursor: nat)
    requires cursor <= |stream| && NextUnit(stream, cursor).unit.Some?
    ensures var r := NextUnit(stream, cursor);
            Units(stream, Drain(stream, cursor))
              == [Contents(stream, r.unit.value)] + Units(stream, Drain(stream, r.cursor))
  {
    var r := NextUnit(stream, cursor);
    var rest := Drain(stream, r.cursor);
    assert Drain(stream, cursor) == [r.unit.value] + rest;
    assert ([r.unit.value] + rest)[1..] == rest;
  }

  /** Requests that neither queue data nor the marker leave the reading half alone. */
  lemma ReadInvOtherLog(stream: seq<byte>, cursor: nat, isEOS: bool, log: seq<Action>, log': seq<Action>)
    requires ReadInv(stream, cursor, isEOS, log)
    requires Payloads(log') == Payloads(log) && EndOfStreamCount(log') == EndOfStreamCount(log)
    ensures ReadInv(stream, cursor, isEOS, log')
  {
  }

  /** Queueing the next unit moves it from the units still to read to the queued ones. */
  lemma ReadInvQueueUnit(stream: seq<byte>, cursor: nat, log: seq<Action>, slot: nat)
    requires ReadInv(stream, cursor, false, log) && NextUnit(stream, cursor).unit.Some?
    ensures var r := NextUnit(stream, cursor);
            ReadInv(stream, r.cursor, false, log + [QueueInput(slot, Contents(stream, r.unit.value), 0, 0)])
  {
    var r := NextUnit(stream, cursor);
    var data := Contents(stream, r.unit.value);
    AppendAction(log, QueueInput(slot, data, 0, 0));
    UnitsAhead(stream, cursor);
    var rest := Units(stream, Drain(stream, r.cursor));
    AppendAssoc(Payloads(log), [data], rest);
  }

  lemma InputUnitKeeps(stream: seq<byte>, p: Pump, inIndex: int)
    requires Inv(stream, p) && p.status == Running && !p.isEOS && inIndex >= 0
    requires NextUnit(stream, p.cursor).unit.Some?
    ensures Inv(stream, InputPhase(stream, p, inIndex))
  {
    var q := InputPhase(stream, p, inIndex);
    var r := NextUnit(stream, p.cursor);
    var a := QueueInput(inIndex, Contents(stream, r.unit.value), 0, 0);
    assert q.log == p.log + [a];
    ReadInvQueueUnit(stream, p.cursor, p.log, inIndex);
    AppendBeforeEnd(p.log, a);
    AppendNoTeardown(p.log, a);
  }

  /** Queueing the end-of-stream marker when the reader is dry. */
  lemma InputEndKeeps(stream: seq<byte>, p: Pump, inIndex: int)
    requires Inv(stream, p) && p.status == Running && !p.isEOS && inIndex >= 0
    requires NextUnit(stream, p.cursor).unit.None?
    ensures Inv(stream, InputPhase(stream, p, inIndex))
  {
    var q := InputPhase(stream, p, inIndex);
    var a := QueueInput(inIndex, [], 0, FlagEndOfStream);
    assert q.log == p.log + [a];
    AppendAction(p.log, a);
    AppendBeforeEnd(p.log, a);
    AppendNoTeardown(p.log, a);
    assert Drain(stream, p.cursor) == [];
  }

  /** The input half keeps the invariant. */
  lemma InputPhaseKeeps(stream: seq<byte>, p: Pump, inIndex: int)
    requires Inv(stream, p) && p.status == Running
    ensures Inv(stream, InputPhase(stream, p, inIndex))
  {
    if !p.isEOS && inIndex >= 0 {
      if NextUnit(stream, p.cursor).unit.Some? {
        InputUnitKeeps(stream, p, inIndex);
      } else {
        InputEndKeeps(stream, p, inIndex);
      }
    }
  }

  /** Releasing an output buffer and taking its buffer info keeps the invariant, the
      running loop's flag aside. */
  lemma ReleaseKeeps(stream: seq<byte>, p: Pump, index: nat, info: BufferInfo)
    requires Inv(stream, p) && p.status == Running
    ensures Inv(stream, Pump(p.cursor, p.isEOS, info, p.log + [ReleaseOutput(index, true)], Sleeping))
  {
    var a := ReleaseOutput(index, true);
    AppendAction(p.log, a);
    AppendOther(p.log, a);
    AppendNoTeardown(p.log, a);
    ReadInvOtherLog(stream, p.cursor, p.isEOS, p.log, p.log + [a]);
  }

  /** The output half keeps the invariant, but for the running loop's flag, which the end
      check looks after. */
  lemma OutputPhaseKeeps(stream: seq<byte>, p: Pump, out: OutEvent, polls: seq<Poll>, startMs: int)
    requires Inv(stream, p) && p.status == Running
    ensures var q := OutputPhase(p, out, polls, startMs);
            q.status != Finished && Inv(stream, q.(status := Sleeping))
  {
    var q := OutputPhase(p, out, polls, startMs);
    if q.log != p.log {
      ReleaseKeeps(stream, p, out.index, out.info);
      assert q.(status := Sleeping) == Pump(p.cursor, p.isEOS, out.info, p.log + [ReleaseOutput(out.index, true)], Sleeping);
    }
  }

  /** One turn keeps the invariant. */
  lemma StepKeeps(stream: seq<byte>, startMs: int, p: Pump, c: Cycle)
    requires Inv(stream, p)
    ensures Inv(stream, Step(stream, startMs, p, c))
  {
    if p.status == Running {
      if c.interrupted {
        TeardownKeeps(p);
      } else {
        var a := InputPhase(stream, p, c.inIndex);
        InputPhaseKeeps(stream, p, c.inIndex);
        var b := OutputPhase(a, c.out, c.polls, startMs);
        OutputPhaseKeeps(stream, a, c.out, c.polls, startMs);
        if b.status == Running && b.info.flags & FlagEndOfStream != 0 {
          TeardownKeeps(b);
        }
      }
    }
  }

  /** Every run keeps the invariant. */
  lemma {:induction false} RunKeeps(stream: seq<byte>, startMs: int, p: Pump, cycles: seq<Cycle>)
    requires Inv(stream, p)
    decreases |cycles|
    ensures Inv(stream, Run(stream, startMs, p, cycles))
  {
    if |cycles| > 0 {
      StepKeeps(stream, startMs, p, cycles[0]);
      RunKeeps(stream, startMs, Step(stream, startMs, p, cycles[0]), cycles[1..]);
    }
  }

  /** A turn that starts with the reader on a start code (or near the end) leaves it so. */
  lemma StepStaysAligned(stream: seq<byte>, startMs: int, p: Pump, c: Cycle)
    requires Aligned(stream, p.cursor)
    ensures Aligned(stream, Step(stream, startMs, p, c).cursor)
  {
    AlignedReaderIsSound(stream, p.cursor);
  }

  lemma {:induction false} RunStaysAligned(stream: seq<byte>, startMs: int, p: Pump, cycles: seq<Cycle>)
    requires Aligned(stream, p.cursor)
    decreases |cycles|
    ensures Aligned(stream, Run(stream, startMs, p, cycles).cursor)
  {
    if |cycles| > 0 {
      StepStaysAligned(stream, startMs, p, cycles[0]);
      RunStaysAligned(stream, startMs, Step(stream, startMs, p, cycles[0]), cycles[1..]);
    }
  }

  /** On a stream that opens with a start code (or is too short to hold a unit), after any
      turns the reader's next answer is the Java reader's: the pump never reaches either
      defect, so reading with the corrected reader changes nothing. */
  lemma PumpReadsAsJava(stream: seq<byte>, startMs: int, cycles: seq<Cycle>)
    requires StartCodeAt(stream, 0) || |stream| < 5
    ensures var c := Run(stream, startMs, Init, cycles).cursor;
            !AtDefect(stream, c)
            && AsWritten(stream, c) == RawStep(AsCall(NextUnit(stream, c).unit), NextUnit(stream, c).cursor)
  {
    RunStaysAligned(stream, startMs, Init, cycles);
    var c := Run(stream, startMs, Init, cycles).cursor;
    AlignedReaderIsSound(stream, c);
    ReadersAgreeOffDefects(stream, c);
  }

  /** Whatever the codec and the clock do: the queued units are a prefix of the stream's
      units in reading order, and all of them once the end-of-stream marker has been queued;
      the marker is queued at most once and nothing is queued after it. */
  lemma UnitsQueuedInOrder(stream: seq<byte>, startMs: int, cycles: seq<Cycle>)
    ensures var q := Run(stream, startMs, Init, cycles);
            var all := Units(stream, Drain(stream, 0));
            |Payloads(q.log)| <= |all| && Payloads(q.log) == all[..|Payloads(q.log)|]
            && (q.isEOS ==> Payloads(q.log) == all)
            && EndOfStreamCount(q.log) == (if q.isEOS then 1 else 0)
            && NothingQueuedAfterEnd(q.log)
  {
    var q := Run(stream, startMs, Init, cycles);
    RunKeeps(stream, startMs, Init, cycles);
    var all := Units(stream, Drain(stream, 0));
    assert Payloads(q.log) + Units(stream, Drain(stream, q.cursor)) == all;
    assert all[..|Payloads(q.log)|] == Payloads(q.log);
  }

  /** A finished run asked the codec to stop and then to release it, as its last two
      requests and nowhere else; an unfinished run has not asked. */
  lemma TeardownIsLast(stream: seq<byte>, startMs: int, cycles: seq<Cycle>)
    ensures var q := Run(stream, startMs, Init, cycles);
            TeardownOnlyAtEnd(q.log, q.status)
            && (q.status == Running ==> q.info.flags & FlagEndOfStream == 0)
  {
    RunKeeps(stream, startMs, Init, cycles);
  }

  /** The bytes of a sequence of buffers laid end to end. */
  function Flatten(bufs: seq<seq<byte>>): seq<byte>
  {
    if |bufs| == 0 then [] else bufs[0] + Flatten(bufs[1..])
  }

  lemma {:induction false} FlattenUnits(buf: seq<byte>, segs: seq<Segment>)
    requires AllWithin(buf, segs)
    ensures Flatten(Units(buf, segs)) == Concat(buf, segs)
  {
    if |segs| > 0 {
      FlattenUnits(buf, segs[1..]);
      assert Units(buf, segs)[1..] == Units(buf, segs[1..]);
    }
  }

  /** For a stream that opens with a start code, once the end-of-stream marker is queued the
      queued bytes are the whole stream, save a lone start code at its very end. */
  lemma QueuedBytesCoverStream(stream: seq<byte>, startMs: int, cycles: seq<Cycle>)
    requires StartCodeAt(stream, 0)
    ensures var q := Run(stream, startMs, Init, cycles);
            q.isEOS ==> Flatten(Payloads(q.log)) + Uncovered(stream) == stream
  {
    var q := Run(stream, startMs, Init, cycles);
    UnitsQueuedInOrder(stream, startMs, cycles);
    FlattenUnits(stream, Drain(stream, 0));
    DrainCoversBuffer(stream, 0);
    assert stream[0..] == stream;
  }

  /** A two-unit stream, the three turns played on it, and the states after each turn. */
  const TwoUnits: seq<byte> := [0, 0, 0, 1, 0x67, 0xAA, 0, 0, 0, 1, 0x68, 0xBB]
  const Turn1: Cycle := Cycle(false, 0, TryAgainLater, [])
  const Turn2: Cycle := Cycle(false, 1, Ready(0, BufferInfo(0, 0)), [Poll(100, false)])
  const Turn3: Cycle :=
    Cycle(false, 0, Ready(1, BufferInfo(40_000, FlagEndOfStream)), [Poll(120, false), Poll(140, false)])
  const Log1: seq<Action> := [QueueInput(0, [0, 0, 0, 1, 0x67, 0xAA], 0, 0)]
  const Log2: seq<Action> := Log1 + [QueueInput(1, [0, 0, 0, 1, 0x68, 0xBB], 0, 0), ReleaseOutput(0, true)]
  const Log3: seq<Action> :=
    Log2 + [QueueInput(0, [], 0, FlagEndOfStream), ReleaseOutput(1, true), StopDecoder, ReleaseDecoder]

  lemma SampleTurn1()
    ensures Step(TwoUnits, 100, Init, Turn1) == Pump(6, false, EmptyInfo, Log1, Running)
  {
    SampleStream();
    assert Contents(TwoUnits, Segment(0, 6)) == [0, 0, 0, 1, 0x67, 0xAA];
  }

  lemma SampleTurn2()
    ensures Step(TwoUnits, 100, Pump(6, false, EmptyInfo, Log1, Running), Turn2)
              == Pump(10, false, BufferInfo(0, 0), Log2, Running)
  {
    SampleStream();
    assert Contents(TwoUnits, Segment(6, 6)) == [0, 0, 0, 1, 0x68, 0xBB];
    assert Pace(0, 100, Turn2.polls) == OnTime(0);
  }

  lemma SampleTurn3()
    ensures Step(TwoUnits, 100, Pump(10, false, BufferInfo(0, 0), Log2, Running), Turn3)
              == Pump(10, true, BufferInfo(40_000, FlagEndOfStream), Log3, Finished)
  {
    SampleStream();
    assert DueMs(40_000) == 40;
    assert Pace(40, 100, Turn3.polls) == OnTime(1);
  }

  /** The stream `00 00 00 01 67 AA 00 00 00 01 68 BB` over three turns: both units are
      queued in the first two, the first frame is released once its time has come, the
      end-of-stream marker is queued in the third, and the last frame, carrying the
      end-of-stream flag, is released before the codec is stopped and released. */
  lemma SampleRun()
    ensures Run(TwoUnits, 100, Init, [Turn1, Turn2, Turn3]).log == Log3
  {
    var s1 := Pump(6, false, EmptyInfo, Log1, Running);
    var s2 := Pump(10, false, BufferInfo(0, 0), Log2, Running);
    var s3 := Pump(10, true, BufferInfo(40_000, FlagEndOfStream), Log3, Finished);
    SampleTurn1();
    SampleTurn2();
    SampleTurn3();
    var cycles := [Turn1, Turn2, Turn3];
    assert cycles[1..] == [Turn2, Turn3] && cycles[1..][1..] == [Turn3];
    assert Run(TwoUnits, 100, s2, [Turn3]) == s3 by {
      assert [Turn3][1..] == [];
    }
    assert Run(TwoUnits, 100, s1, [Turn2, Turn3]) == s3;
    assert Run(TwoUnits, 100, Init, cycles) == s3;
  }
}

=== FILE: nal_unit_reader.dfy ===
/** `NALUnitReader.nextNALUnit`: split an Annex-B buffer into NAL units at four-byte
    start codes, one unit per call, through a cursor into the buffer.

    Three views of the same scan:
    - `Classify` says declaratively where the scan stops, in terms of `FindStartCode`;
    - `AsWritten` is what the Java method hands to `getSegment`, defects included,
      and `NextNALUnit` is the Java loop itself, proved to compute it;
    - `NextUnit` is the corrected reader that the decode pump uses. */
module NalUnitReader {
  import opened Wrappers
  import opened AnnexB

  /** What `nextNALUnit` returns: `null`, or `getSegment(offset, length)` with the
      arguments exactly as computed (they may be out of range). */
  datatype Call = Null | GetSegment(offset: int, length: int)

  /** The Java reader's answer together with where it leaves the cursor. */
  datatype RawStep = RawStep(call: Call, cursor: nat)

  /** The corrected reader's answer together with where it leaves the cursor. */
  datatype Step = Step(unit: Option<Segment>, cursor: nat)

  /** Where a scan that begins at `pos` stops. */
  datatype Scan =
    | TooShort                      // fewer than 5 bytes remain
    | NoMarker                      // no start code at or after the cursor
    | MarkerAtEnd(start: nat)       // the opening start code is the buffer's last 4 bytes
    | Closed(start: nat, next: nat) // a second start code at `next` closes the unit
    | Unclosed(start: nat)          // no second start code: the unit runs to the end

  function Classify(buf: seq<byte>, pos: nat): Scan
    requires pos <= |buf|
  {
    if |buf| - pos < 5 then TooShort
    else match FindStartCode(buf, pos)
      case None => NoMarker
      case Some(s) =>
        if s + 4 == |buf| then MarkerAtEnd(s)
        else match FindStartCode(buf, s + 4)
          case None => Unclosed(s)
          case Some(e) => Closed(s, e)
  }

  function Max(a: int, b: int): int
  {
    if a < b then b else a
  }

  /** The Java method's result, case by case: `start` is still -1 when no start code was
      seen, and the loop-exit return passes the cursor where a length belongs. */
  function AsWritten(buf: seq<byte>, pos: nat): RawStep
    requires pos <= |buf|
  {
    match Classify(buf, pos)
    case TooShort => RawStep(Null, pos)
    case NoMarker => RawStep(GetSegment(-1, |buf| + 1), |buf| - 3)
    case MarkerAtEnd(s) => RawStep(GetSegment(s, |buf|), |buf|)
    case Closed(s, e) => RawStep(GetSegment(s, e - s), e)
    case Unclosed(s) => RawStep(GetSegment(s, |buf| - s), Max(s + 4, |buf| - 3))
  }

  /** Where the scan stops, in terms of start codes: nothing to do with fewer than 5 bytes,
      no marker when no start code lies ahead, otherwise the first start code ahead, and for
      a closed unit the first start code after it. */
  lemma ClassifyFindsFirstStartCodes(buf: seq<byte>, pos: nat)
    requires pos <= |buf|
    ensures var r := Classify(buf, pos);
            (r.TooShort? <==> |buf| - pos < 5)
            && (r.NoMarker? <==> 5 <= |buf| - pos && forall j :: pos <= j ==> !StartCodeAt(buf, j))
            && (r.MarkerAtEnd? || r.Closed? || r.Unclosed? ==>
                  pos <= r.start && StartCodeAt(buf, r.start)
                  && forall j :: pos <= j < r.start ==> !StartCodeAt(buf, j))
            && (r.MarkerAtEnd? ==> r.start + 4 == |buf|)
            && (r.Closed? ==>
                  r.start + 4 <= r.next && StartCodeAt(buf, r.next)
                  && forall j :: r.start + 4 <= j < r.next ==> !StartCodeAt(buf, j))
            && (r.Unclosed? ==> r.start + 4 < |buf| && forall j :: r.start + 4 <= j ==> !StartCodeAt(buf, j))
  {
  }

  /** The Java reader's answer in terms of start codes: `null` exactly when fewer than 5 bytes
      remain, a negative offset exactly when no start code lies ahead, and otherwise a
      segment opening at the first start code ahead with the cursor moved forward. */
  lemma AsWrittenFindsFirstStartCode(buf: seq<byte>, pos: nat)
    requires pos <= |buf|
    ensures var r := AsWritten(buf, pos);
            (r.call.Null? <==> |buf| - pos < 5)
            && (r.call.Null? ==> r.cursor == pos)
            && (r.call.GetSegment? && r.call.offset < 0 <==>
                  5 <= |buf| - pos && forall j :: pos <= j ==> !StartCodeAt(buf, j))
            && (r.call.GetSegment? && r.call.offset >= 0 ==>
                  pos <= r.call.offset && StartCodeAt(buf, r.call.offset)
                  && (forall j :: pos <= j < r.call.offset ==> !StartCodeAt(buf, j))
                  && pos < r.cursor <= |buf|)
  {
  }

  /** `nextNALUnit` as written: an overlapping four-byte window that rewinds three bytes
      on a mismatch, records the first start code and stops on the second. */
  method NextNALUnit(buf: seq<byte>, cursor: nat) returns (call: Call, pos: nat)
    requires cursor <= |buf|
    ensures RawStep(call, pos) == AsWritten(buf, cursor)
    ensures |buf| - cursor < 5 ==> call == Null && pos == cursor
    ensures call.GetSegment? && call.offset >= 0 ==>
              cursor <= call.offset && StartCodeAt(buf, call.offset)
              && forall j :: cursor <= j < call.offset ==> !StartCodeAt(buf, j)
  {
    pos := cursor;
    if |buf| - pos < 5 {
      return Null, pos;
    }
    var start: int := -1;
    // The do-while's test `remaining() > 0`; the guard above makes the first one true.
    while pos < |buf|
      invariant cursor <= pos <= |buf|
      invariant start == -1 ==> pos + 3 <= |buf| && forall j :: cursor <= j < pos ==> !StartCodeAt(buf, j)
      invariant start != -1 ==>
                  0 <= start && FindStartCode(buf, cursor) == Some(start as nat)
                  && start + 4 <= pos && (pos == start + 4 || pos + 3 <= |buf|)
                  && forall j :: start + 4 <= j < pos ==> !StartCodeAt(buf, j)
      decreases |buf| - pos
    {
      if |buf| - pos >= 4 {
        var marker := buf[pos .. pos + 4];
        WindowMatches(buf, pos);
        pos := pos + 4;
        if marker == StartCode {
          if start == -1 {
            start := pos - 4;
          } else {
            pos := pos - 4;
            return GetSegment(start, pos - start), pos;
          }
        } else {
          pos := pos - 3;
        }
      } else {
        return GetSegment(start, |buf| - start), pos;
      }
    }
    call := GetSegment(start, pos);
  }

  /** The reader with both defects corrected: no unit when no start code is found, and
      length `position - start` for a unit that is just its start code at buffer end. */
  function NextUnit(buf: seq<byte>, pos: nat): (r: Step)
    requires pos <= |buf|
    ensures pos <= r.cursor <= |buf|
    ensures |buf| - pos < 5 ==> r == Step(None, pos)
    ensures r.unit.None? <==> |buf| - pos < 5 || forall j :: pos <= j ==> !StartCodeAt(buf, j)
    ensures r.unit.None? ==> |buf| - r.cursor < 5
    ensures r.unit.Some? ==>
              var u := r.unit.value;
              u.Within(buf) && 4 <= u.length && pos < r.cursor
              && pos <= u.offset && StartCodeAt(buf, u.offset)
              && (forall j :: pos <= j < u.offset ==> !StartCodeAt(buf, j))
              && NoInteriorStartCode(buf, u)
              && ((r.cursor == u.End() && StartCodeAt(buf, u.End()))
                  || (u.End() == |buf| && |buf| - r.cursor < 5))
  {
    match Classify(buf, pos)
    case TooShort => Step(None, pos)
    case NoMarker => Step(None, |buf| - 3)
    case MarkerAtEnd(s) => Step(Some(Segment(s, 4)), |buf|)
    case Closed(s, e) =>
      assert forall k :: s < k < s + 4 ==> !StartCodeAt(buf, k);
      Step(Some(Segment(s, e - s)), e)
    case Unclosed(s) =>
      assert forall k :: s < k < s + 4 ==> !StartCodeAt(buf, k);
      Step(Some(Segment(s, |buf| - s)), Max(s + 4, |buf| - 3))
  }

  /** The units of successive calls from `pos` until the reader reports none. */
  function Drain(buf: seq<byte>, pos: nat): (segs: seq<Segment>)
    requires pos <= |buf|
    decreases |buf| - pos
    ensures AllWithin(buf, segs)
    ensures forall i :: 0 <= i < |segs| ==>
              pos <= segs[i].offset && StartCodeAt(buf, segs[i].offset) && NoInteriorStartCode(buf, segs[i])
    ensures forall i :: 0 < i < |segs| ==> segs[i - 1].End() == segs[i].offset
    ensures |segs| > 0 ==> forall j :: pos <= j < segs[0].offset ==> !StartCodeAt(buf, j)
  {
    var r := NextUnit(buf, pos);
    match r.unit
    case None => []
    case Some(u) => [u] + Drain(buf, r.cursor)
  }

  /** A cursor from which the Java reader behaves: on a start code, or too close to the end
      to try. */
  predicate Aligned(buf: seq<byte>, pos: nat)
  {
    pos <= |buf| && (StartCodeAt(buf, pos) || |buf| - pos < 5)
  }

  /** The corrected reader's answer in the Java reader's terms. */
  function AsCall(unit: Option<Segment>): Call
  {
    match unit
    case None => Null
    case Some(u) => GetSegment(u.offset, u.length)
  }

  /** From an aligned cursor neither defect is reachable: the Java reader returns what the
      corrected one does, and leaves the cursor aligned again. */
  lemma AlignedReaderIsSound(buf: seq<byte>, pos: nat)
    requires Aligned(buf, pos)
    ensures !Classify(buf, pos).NoMarker? && !Classify(buf, pos).MarkerAtEnd?
    ensures AsWritten(buf, pos) == RawStep(AsCall(NextUnit(buf, pos).unit), NextUnit(buf, pos).cursor)
    ensures Aligned(buf, NextUnit(buf, pos).cursor)
  {
  }

  /** The cursors at which the Java reader misbehaves: at least 5 bytes remain and either no
      start code lies ahead, or the first one ahead is the buffer's last four bytes. */
  predicate AtDefect(buf: seq<byte>, pos: nat)
  {
    pos <= |buf| && 5 <= |buf| - pos
    && ((forall j :: pos <= j < |buf| ==> !StartCodeAt(buf, j))
        || (StartCodeAt(buf, |buf| - 4) && forall j :: pos <= j < |buf| - 4 ==> !StartCodeAt(buf, j)))
  }

  /** The Java reader and the corrected one agree, range and cursor, everywhere except at
      the two defects. */
  lemma ReadersAgreeOffDefects(buf: seq<byte>, pos: nat)
    requires pos <= |buf|
    ensures AsWritten(buf, pos) == RawStep(AsCall(NextUnit(buf, pos).unit), NextUnit(buf, pos).cursor)
            <==> !AtDefect(buf, pos)
  {
    if 5 <= |buf| - pos && StartCodeAt(buf, |buf| - 4)
       && forall j :: pos <= j < |buf| - 4 ==> !StartCodeAt(buf, j) {
      assert FindStartCode(buf, pos) == Some(|buf| - 4);
    }
  }

  /** The Java reader's answers from `pos` until it returns `null`. */
  function RawDrain(buf: seq<byte>, pos: nat): seq<Call>
    requires pos <= |buf|
    decreases |buf| - pos
  {
    var r := AsWritten(buf, pos);
    if r.call.Null? || r.cursor <= pos then [] else [r.call] + RawDrain(buf, r.cursor)
  }

  function AsCalls(segs: seq<Segment>): (calls: seq<Call>)
    ensures |calls| == |segs|
  {
    if |segs| == 0 then [] else [AsCall(Some(segs[0]))] + AsCalls(segs[1..])
  }

  /** Reading a stream from a start code until `null`, the Java reader and the corrected
      one return the same ranges, in the same order. */
  lemma {:induction false} AlignedDrainIsSound(buf: seq<byte>, pos: nat)
    requires Aligned(buf, pos)
    decreases |buf| - pos
    ensures RawDrain(buf, pos) == AsCalls(Drain(buf, pos))
  {
    AlignedReaderIsSound(buf, pos);
    var r := NextUnit(buf, pos);
    if r.unit.Some? {
      AlignedDrainIsSound(buf, r.cursor);
      assert Drain(buf, pos) == [r.unit.value] + Drain(buf, r.cursor);
      assert AsCalls(Drain(buf, pos))[1..] == AsCalls(Drain(buf, r.cursor));
    }
  }

  /** The bytes no unit covers at the end of a stream read from a start code: a bare start
      code in the last four bytes, or nothing. */
  function Uncovered(buf: seq<byte>): seq<byte>
  {
    if StartCodeAt(buf, |buf| - 4) then StartCode else []
  }

  /** A unit that runs to the end of the buffer leaves nothing uncovered. */
  lemma RunToEndLeavesNothing(buf: seq<byte>, u: Segment)
    requires u.Within(buf) && u.End() == |buf| && 4 < u.length
    requires StartCodeAt(buf, u.offset) && NoInteriorStartCode(buf, u)
    ensures Uncovered(buf) == []
  {
    if StartCodeAt(buf, |buf| - 4) {
      if |buf| - 4 < u.offset + 4 {
        StartCodesDoNotOverlap(buf, u.offset, |buf| - 4);
      }
    }
  }

  /** One step of the round trip: the first unit, then the units after it. */
  lemma DrainStep(buf: seq<byte>, pos: nat)
    requires pos <= |buf| && NextUnit(buf, pos).unit.Some?
    ensures var r := NextUnit(buf, pos);
            Concat(buf, Drain(buf, pos)) == Contents(buf, r.unit.value) + Concat(buf, Drain(buf, r.cursor))
  {
    var r := NextUnit(buf, pos);
    var segs := Drain(buf, pos);
    assert segs == [r.unit.value] + Drain(buf, r.cursor);
    assert segs[1..] == Drain(buf, r.cursor);
  }

  /** The last unit of a stream read from a start code, when no start code closes it. */
  lemma LastUnitCoversRest(buf: seq<byte>, pos: nat)
    requires pos <= |buf| && StartCodeAt(buf, pos) && 5 <= |buf| - pos
    requires !StartCodeAt(buf, NextUnit(buf, pos).cursor)
    ensures Concat(buf, Drain(buf, pos)) + Uncovered(buf) == buf[pos..]
  {
    var r := NextUnit(buf, pos);
    var u := r.unit.value;
    assert u.offset == pos;
    assert u.End() == |buf| && |buf| - r.cursor < 5;
    assert Drain(buf, r.cursor) == [];
    DrainStep(buf, pos);
    RunToEndLeavesNothing(buf, u);
  }

  /** A unit closed by the next start code extends the round trip by its own bytes. */
  lemma ClosedUnitExtends(buf: seq<byte>, pos: nat)
    requires pos <= |buf| && StartCodeAt(buf, pos) && 5 <= |buf| - pos
    requires StartCodeAt(buf, NextUnit(buf, pos).cursor)
    ensures var c := NextUnit(buf, pos).cursor;
            Concat(buf, Drain(buf, c)) + Uncovered(buf) == buf[c..] ==>
            Concat(buf, Drain(buf, pos)) + Uncovered(buf) == buf[pos..]
  {
    var c := NextUnit(buf, pos).cursor;
    var u := NextUnit(buf, pos).unit.value;
    assert u.offset == pos && c == u.End();
    DrainStep(buf, pos);
    var a, b, x := Contents(buf, u), Concat(buf, Drain(buf, c)), Uncovered(buf);
    if b + x == buf[c..] {
      AppendAssoc(a, b, x);
      SlicesJoin(buf, pos, c);
    }
  }

  /** Round trip: from a start code, the units laid end to end give back the rest of the
      buffer, except a bare start code in the last four bytes, which no unit covers. */
  lemma {:induction false} DrainCoversBuffer(buf: seq<byte>, pos: nat)
    requires pos <= |buf| && StartCodeAt(buf, pos)
    decreases |buf| - pos
    ensures Concat(buf, Drain(buf, pos)) + Uncovered(buf) == buf[pos..]
  {
    if |buf| - pos < 5 {
      WindowMatches(buf, pos);
    } else {
      var c := NextUnit(buf, pos).cursor;
      if StartCodeAt(buf, c) {
        DrainCoversBuffer(buf, c);
        ClosedUnitExtends(buf, pos);
      } else {
        LastUnitCoversRest(buf, pos);
      }
    }
  }

  /** If one to three bytes follow the first start code ahead, the unit runs to the end of
      the buffer and the next call reports none, in both readers. */
  lemma ShortTailRunsToEnd(buf: seq<byte>, pos: nat, s: nat)
    requires pos <= |buf| && FindStartCode(buf, pos) == Some(s) && 0 < |buf| - (s + 4) < 4
    ensures NextUnit(buf, pos).unit == Some(Segment(s, |buf| - s))
    ensures NextUnit(buf, NextUnit(buf, pos).cursor).unit.None?
    ensures AsWritten(buf, pos).call == GetSegment(s, |buf| - s)
    ensures AsWritten(buf, AsWritten(buf, pos).cursor).call.Null?
  {
  }

  /** The stream `00 00 00 01 67 AA 00 00 00 01 68 BB` reads as (0, 6), then (6, 6), then
      nothing, for the Java reader and the corrected one alike. */
  lemma SampleStream()
    ensures var buf: seq<byte> := [0, 0, 0, 1, 0x67, 0xAA, 0, 0, 0, 1, 0x68, 0xBB];
            AsWritten(buf, 0) == RawStep(GetSegment(0, 6), 6)
            && AsWritten(buf, 6) == RawStep(GetSegment(6, 6), 10)
            && AsWritten(buf, 10) == RawStep(Null, 10)
            && NextUnit(buf, 0) == Step(Some(Segment(0, 6)), 6)
            && NextUnit(buf, 6) == Step(Some(Segment(6, 6)), 10)
            && NextUnit(buf, 10) == Step(None, 10)
            && Drain(buf, 0) == [Segment(0, 6), Segment(6, 6)]
  {
    var buf: seq<byte> := [0, 0, 0, 1, 0x67, 0xAA, 0, 0, 0, 1, 0x68, 0xBB];
    assert StartCodeAt(buf, 0) && StartCodeAt(buf, 6);
    assert FindStartCode(buf, 0) == Some(0);
    assert FindStartCode(buf, 4) == Some(6);
    assert FindStartCode(buf, 6) == Some(6);
    assert FindStartCode(buf, 10) == None;
  }

  /** Defect at NALUnitReader.java line 43: with no start code ahead of the cursor the
      reader asks for a segment at offset -1. */
  lemma NoMarkerAsksForOffsetMinusOne(buf: seq<byte>, pos: nat)
    requires pos <= |buf| && 5 <= |buf| - pos
    requires forall j :: pos <= j ==> !StartCodeAt(buf, j)
    ensures AsWritten(buf, pos).call == GetSegment(-1, |buf| + 1)
    ensures AsWritten(buf, AsWritten(buf, pos).cursor).call == Null
    ensures NextUnit(buf, pos).unit.None?
  {
    assert FindStartCode(buf, pos).None?;
  }

  lemma NoMarkerExample()
    ensures AsWritten([0xAA, 0xBB, 0xCC, 0xDD, 0xEE], 0) == RawStep(GetSegment(-1, 6), 2)
    ensures AsWritten([0xAA, 0xBB, 0xCC, 0xDD, 0xEE], 2).call == Null
    ensures NextUnit([0xAA, 0xBB, 0xCC, 0xDD, 0xEE], 0).unit.None?
  {
    var buf: seq<byte> := [0xAA, 0xBB, 0xCC, 0xDD, 0xEE];
    assert FindStartCode(buf, 0) == None;
  }

  /** Defect at NALUnitReader.java line 47: when the opening start code is the buffer's last
      four bytes the loop exits and the length passed is the cursor, which overruns the
      buffer; the corrected reader returns just the start code. */
  lemma MarkerAtEndOverruns(buf: seq<byte>, pos: nat)
    requires pos <= |buf| && 5 <= |buf| - pos && StartCodeAt(buf, |buf| - 4)
    requires forall j :: pos <= j < |buf| - 4 ==> !StartCodeAt(buf, j)
    ensures AsWritten(buf, pos) == RawStep(GetSegment(|buf| - 4, |buf|), |buf|)
    ensures AsWritten(buf, |buf|).call == Null
    ensures !Segment(|buf| - 4, |buf|).Within(buf)
    ensures NextUnit(buf, pos).unit == Some(Segment(|buf| - 4, 4))
  {
    assert FindStartCode(buf, pos) == Some(|buf| - 4);
  }

  lemma MarkerAtEndExample()
    ensures AsWritten([0xAA, 0, 0, 0, 1], 0).call == GetSegment(1, 5)
    ensures NextUnit([0xAA, 0, 0, 0, 1], 0).unit == Some(Segment(1, 4))
  {
    var buf: seq<byte> := [0xAA, 0, 0, 0, 1];
    assert FindStartCode(buf, 0) == Some(1);
  }
}

=== FILE: wrappers.dfy ===
/** The optional value the Java code expresses with `null`. */
module Wrappers {

  datatype Option<+T> = None | Some(value: T)
}
